=== FILE: README.md ===
# Documentation site search and navigation, modelled in Dafny

This project models the logic in `js/app.js` of a single-page reference site.
The page itself is replaced by plain data. Three parts of the script are covered:

- **The search index builder** (`buildSearchIndex`). The page content is a sequence of sections. Each section has an id, an optional title, its whole text, its `h2`/`h3` headings (each with the text of the element after it), and its table body rows (each a sequence of cell texts). The builder turns this into a flat, ordered list of entries `{id, title, category, content}`. It uses the script's own category labels: `Раздел` for a section, the section's title for a heading, and `Команда` for a table row. Snippets are cut at 500 characters for a section and at 200 for a heading or a row.
- **The query engine**:
  - `performSearch` has three outcomes: inactive, nothing found, or the first ten matches.
  - `escapeRegex` is modelled together with a small fragment of regular-expression syntax. This shows that the escaped query is read back as exactly the query.
  - `highlightMatch` is a left-to-right, non-overlapping wrap of every case-insensitive occurrence of the query, using start and end markers.
  - The rendered results panel is modelled too.
- **The navigation state machine** (`navigateTo`, `handleHashChange` and the page load). The state holds the active sections, the active menu entries, the open menu groups, the current section, the pushed history entries, `location.hash` and the sidebar flag. The section ids and the menu entries (each with its target section and optional group) are fixed parameters.

The table-row filter predicate is modelled as well.

Modules: `Wrappers` (the optional value), `Text` (lower-casing, `includes`, `trim`), `Seqs` (prefixes, subsequences, concat-map), `Content` (the page content), `SearchIndex`, `RegexEscape`, `Highlight`, `Search`, `Navigation`, `TableFilter`, and `App` (search results feeding navigation).

One consequence of the code is worth stating up front:

- **Unknown or empty id.** `navigateTo` always deactivates every section and menu entry, pushes a `{section: id}` history entry and sets the fragment. It activates a section, updates `currentSection` and closes the sidebar only when `getElementById` finds the id, and it never finds the empty id (js/app.js:56-82). So exactly one section is active only while navigation targets existing sections. After a hash change or a page load, exactly one section is active when a `home` section exists (`Navigation.HandleHashChange`, `Navigation.Load`).

## Model

| member | source | states |
|---|---|---|
| Text.Lower | js/app.js:107 | `toLowerCase` maps each character on its own and keeps the length |
| Text.LowerIdempotent | js/app.js:107-111 | Lower-casing an already lower-cased string changes nothing, so lower-casing the query and the entry text once is enough |
| Text.Contains | js/app.js:110-111 | `includes` never finds a needle longer than the text |
| Text.ContainsIffOccurs | js/app.js:110-111 | The `includes` scan holds exactly when the needle occurs at some position of the text; the empty needle occurs everywhere |
| Text.ContainsNeedlePrefix | js/app.js:217 | A text that contains `a + b` contains `a` |
| Text.Trim | js/app.js:47 | `trim` leaves no whitespace character at either end and never lengthens the string |
| Text.TrimUnique | js/app.js:47 | `trim` removes exactly the leading and trailing ECMAScript whitespace: for any split of a string into whitespace, a core with no whitespace at its ends, and whitespace, the result is that core |
| Seqs.Take | js/app.js:30 | `substring(0, n)` / `slice(0, n)` is a prefix of length min(n, length) |
| SearchIndex.SectionEntry | js/app.js:21-31 | A section's entry has the section's id, category `Раздел`, the section title or the empty string when there is none, and the first min(500, length) characters of the section's text |
| SearchIndex.HeadingEntry | js/app.js:34-39 | A heading's entry has the section id, the heading text as title and the section title as category. Its content is the first min(200, length) characters of the next element's text, or empty when there is no next element |
| SearchIndex.HeadingEntries | js/app.js:33-40 | Exactly one entry per heading, in heading order, each built from its own heading |
| SearchIndex.CommandRows | js/app.js:42-44 | The indexed rows are exactly the rows with at least two cells, kept in their original order (a subsequence of the rows), and there are as many of them as there are such rows |
| SearchIndex.CommandRowsKeepCopies | js/app.js:42-44 | Each row with at least two cells is kept as many times as it occurs, and every other row is dropped |
| SearchIndex.RowEntries | js/app.js:42-52 | The row loop gives one entry per row with at least two cells, in row order: the j-th entry is the entry of the j-th such row, so it carries the section id, category `Команда`, the row's trimmed first cell and the start of its last cell (`SearchIndex.RowEntryFacts`) |
| SearchIndex.RowEntryFacts | js/app.js:45-50 | A row's entry has the section id, category `Команда`, the first cell without its surrounding whitespace as title, and the first min(200, length) characters of the last cell as content |
| SearchIndex.SectionEntries | js/app.js:20-52 | A section contributes its own entry first, then the entry of each heading in heading order, then the entry of each row with at least two cells in row order, and nothing else |
| SearchIndex.SectionEntryFacts | js/app.js:26-52 | Every entry of a section carries that section's id, and every entry other than the section's own has content of at most 200 characters |
| SearchIndex.BuildSearchIndex | js/app.js:19-54 | Every section of the page, in any position, has its own entry in the index |
| SearchIndex.EntriesBelongToSections | js/app.js:19-54 | Every index entry's id is the id of a section of the page, and no entry's content exceeds 500 characters |
| SearchIndex.SectionBlock | js/app.js:19-54 | The index is ordered section by section: section k's entries form one contiguous block after those of all earlier sections and before those of all later ones |
| RegexEscape.EscapeRegex | js/app.js:142-144 | The escaped string is longer than the input by exactly the number of `. * + ? ^ $ { } ( ) \| [ ] \` characters, and a string without those characters is unchanged |
| RegexEscape.EscapeConcat | js/app.js:142-144 | Escaping works character by character: the escape of a concatenation is the concatenation of the escapes |
| RegexEscape.EscapeIsLiteral | js/app.js:142-144 | Reading the escaped string as a run of literal atoms (removing each escaping backslash) gives back exactly the input |
| RegexEscape.PatternCapturesQuery | js/app.js:138 | The capture-group pattern built from any query captures exactly that query as literal text |
| RegexEscape.RawQueryIsNotLiteral | js/app.js:138 | Without escaping, a query holding one of the operator characters `^ $ \ . * + ? ( ) [ \|` is either not a literal pattern or denotes some other string |
| RegexEscape.PlainQueryIsLiteral | js/app.js:138 | Without escaping, a query with no operator character and no `{` stands for itself; a lone `]` or `}` is read literally |
| Highlight.Segments | js/app.js:138-139 | With a non-empty query the scan yields at most one segment per title character. With the empty query a title of n characters gives 2n + 1 segments: an empty match at each of the n + 1 positions and the n characters between them |
| Highlight.SegmentsCoverTitle | js/app.js:138-139 | The global scan cuts the title into plain characters and matched runs whose text, in order, is exactly the title |
| Highlight.SegmentsMatchQuery | js/app.js:138 | Every matched run equals the query when letter case is ignored (the `i` flag) |
| Highlight.SegmentsLeftmost | js/app.js:138-139 | Matching is leftmost and non-overlapping: no character left outside a run starts a case-insensitive occurrence of the (non-empty) query in the rest of the title |
| Highlight.Render | js/app.js:139 | The rendered title holds every covered character once and exactly two markers per matched run, and the text between each start marker and its end marker is the matched run, in order |
| Highlight.RenderConcat | js/app.js:139 | Each match is replaced where it stands: rendering a concatenation of segments gives the renderings of the parts, one after the other |
| Highlight.RenderInPlace | js/app.js:139 | Every matched run is wrapped in markers at its own place, and every other character is copied at its own place. What precedes it in the rendered title is the title text before it, plus markers |
| Highlight.RenderFacts | js/app.js:139 | Deleting the markers from the rendered segments gives back their text, and the markers pair up without nesting |
| Highlight.HighlightMatch | js/app.js:137-140 | Highlighting through the escaped pattern is the same as cutting at the occurrences of the raw query. Deleting the markers gives back the title, and the markers are well bracketed |
| Highlight.HighlightRunsMatchQuery | js/app.js:137-140 | The parts of the title that `highlightMatch` wraps in markers are the matched runs of the scan, in order, and each equals the query once letter case is ignored |
| Highlight.SegmentsIgnoreQueryCase | js/app.js:138 | Two queries with the same lower-casing cut every title the same way |
| Highlight.HighlightIgnoresQueryCase | js/app.js:137-140 | Two queries with the same lower-casing give the same highlighted title |
| Search.Matches | js/app.js:109-111 | An entry matches exactly when the lower-cased query occurs at some position of its lower-cased title or of its lower-cased content |
| Search.FilterMatches | js/app.js:108-112 | The filtered list holds exactly the index entries whose lower-cased title or content contains the lower-cased query, in index order (a subsequence of the index), and there are as many of them as there are matching entries |
| Search.FilterMatchesKeepCopies | js/app.js:108-112 | Each matching entry is kept as many times as it occurs in the index, and no other entry is kept |
| Search.PerformSearch | js/app.js:101-113 | Inactive exactly when the raw query is shorter than 2. Nothing found exactly when the query is long enough and no entry matches. Otherwise 1 to 10 results, all matching, in index order, and min(10, number of matches) of them |
| Search.FilterThenTake | js/app.js:108-113 | Filtering everything and keeping the first n entries equals scanning for the first n matches |
| Search.ResultsAreFirstMatches | js/app.js:101-134 | For an active query the outcome is exactly the first ten matching entries in index order, or "nothing found" when there are none |
| Search.RenderResults | js/app.js:116-121 | One rendered item per result, in order, with the result's section id and category. Its title is the entry's title highlighted with the raw query, and its text is the entry's title |
| Search.ShownItemsComeFromIndex | js/app.js:108-121 | Every item the shown panel lists leads to the section of some entry of the index |
| Search.UpdatePanel | js/app.js:101-135 | A short query hides the panel and keeps its old contents. A longer one shows it. The panel holds the "nothing found" message exactly when no entry matches, and otherwise the rendered results |
| Search.PanelIgnoresQueryCase | js/app.js:107-111 | Two queries with the same lower-casing give the same outcome and the same panel, highlighted titles included |
| Search.SearchIdempotent | js/app.js:101-135 | Running the same search twice leaves the panel as one run does |
| Navigation.FindNavItemFrom | js/app.js:61 | The menu-entry lookup returns the first entry in document order that targets the id, or none when no entry does |
| Navigation.NavigateTo | js/app.js:56-82 | For an existing, non-empty id: exactly that section is active and it becomes current. For an unknown or empty id: no section is active and the current section is unchanged. The sidebar closes only for an existing target on a narrow screen. The active menu entries are exactly the first entry that targets the id, if any; one is active exactly when some entry targets the id. Groups are only ever opened; the first target entry's group is open afterwards and no other group is newly opened. Exactly one history entry `{section: id}` is appended, the hash is `#` followed by the id (empty for the empty id), and the fragment reads back as the id |
| Navigation.HashTarget | js/app.js:251-256 | The hash-change target is the fragment when it is non-empty and names a section, and `home` otherwise |
| Navigation.HandleHashChange | js/app.js:250-257 | A hash change navigates to an existing section or to `home`. A fragment naming a section becomes the only active and current section. With a `home` section, exactly one section is active afterwards |
| Navigation.Load | js/app.js:267 | Page load starts with `currentSection` set to `home` (line 15) and resolves the fragment once. Afterwards the current section exists or is `home`, and exactly one section is active when `home` exists |
| Navigation.DeepLinkRoundTrip | js/app.js:250-257 | After navigating to an existing non-empty id, loading the page with the resulting fragment makes that section the only active and current section |
| Navigation.NavigateTwice | js/app.js:56-82 | Navigating to the same id twice gives the state of one navigation, with one more identical history entry |
| Navigation.NavigateAllEndsAtLast | js/app.js:63-65 | After a run of navigations to existing, non-empty section ids, exactly the last one is the active and current section |
| Navigation.NavigateAllHistory | js/app.js:73-81 | Any run of navigations pushes one history entry per navigation, in order, and never closes an open group |
| Navigation.NavigateAllFacts | js/app.js:56-82 | After a run of navigations to existing, non-empty section ids, exactly the last one is active and current, the history has grown by one entry per navigation in order, and no open group was closed |
| TableFilter.FilterRows | js/app.js:209-219 | A row is shown exactly when the lower-cased query occurs at some position of the lower-cased row text |
| TableFilter.EmptyQueryShowsAll | js/app.js:211-217 | An empty filter shows every row |
| TableFilter.LongerQueryShowsFewer | js/app.js:211-217 | Extending the filter text never shows a row that was hidden |
| App.ResultOpensItsSection | js/app.js:124-126 | Clicking any shown search result navigates to a section of the page: it becomes the only active and the current section, unless its id is empty, in which case no section is active and the current section is unchanged |
| App.ClickResult | js/app.js:124-129 | A click on a result navigates to the item's section, appends its history entry, empties the search box and hides the panel without changing what it holds |
| App.ClickOpensResult | js/app.js:114-129 | Clicking any item of the shown panel opens that item's section (when its id is not empty), empties the search box and hides the panel |

## Left out

- DOM querying and traversal (`querySelectorAll`, `closest`, `nextElementSibling`, `textContent`) are replaced by the `Content` data and the fixed `Page` parameters. An element that `getElementById` finds but that is not a `.section` is treated as absent.
- HTML rendering: results and highlighted titles are sequences of items, characters and markers, not HTML strings. Titles and categories are inserted into `innerHTML` unescaped (js/app.js:116-121). How the browser would parse markup inside a title is not modelled.
- Event wiring is not modelled because it has no algorithmic content. This covers:
  - the menu-entry click, which skips an empty `data-section` (js/app.js:84-92);
  - the group-header toggle;
  - the input, focus and document-click handlers of the search box;
  - the keyboard shortcuts;
  - the scroll handler and the back-to-top button;
  - the sidebar toggle, tabs and collapsibles;
  - the `popstate` listener, beyond `handleHashChange` itself.
- `window.scrollTo` and smooth scrolling: no observable state in the model.
- `window.innerWidth` is reduced to the boolean `narrow` (width at most 1024).
- The `setTimeout` loading overlay and the asynchronous clipboard copy (js/app.js:222-241): timers and a foreign async API.
- The browser's history stack (cursor, back/forward, dropping forward entries on a push): the model records the pushed entries only.
- Percent-encoding of the fragment by the browser: `location.hash` is modelled as `#` followed by the id as given.
- A section or menu id containing `"`, `\` or a line break makes the attribute selector at js/app.js:61 invalid or different. This is not modelled; the lookup compares `data-section` with the id directly. In the same way, a result's id is written into the `data-section="${result.id}"` attribute (js/app.js:117) and read back through `dataset.section` on a click (js/app.js:126). That round trip is not modelled for ids containing `"` or `&`; the model passes the id through unchanged.
- A missing sidebar element makes js/app.js:69 throw. This is not modelled; the sidebar is assumed present.
- A `{` in an unescaped pattern is treated as outside the regular-expression fragment, because it may open a `{n,m}` quantifier. `RegexEscape.LiteralText` therefore never reads a pattern holding an unescaped `{` as literal, although `a{b` is literal in a browser.
- Text.LowerChar: lower-casing is exact only for ASCII, Latin-1 and basic Cyrillic letters. Every other character is left unchanged. The same mapping stands for both `toLowerCase` and the regex `i` flag, and mappings that change a string's length are not modelled.
- Strings are sequences of characters, not UTF-16 code units, so the 500/200 snippet limits count characters. The same holds for the `query.length < 2` threshold at js/app.js:102. A query made of a single character outside the Basic Multilingual Plane, such as an emoji, has length 2 in JavaScript, so the search runs, but the model returns `Inactive` for it.
- The empty query in the highlight scan: for it, only the shape of the scan is modelled (an empty match at every position, stepping over one character). `highlightMatch` is never reached with a query shorter than two characters.

=== FILE: app.dfy ===
/**
 How the search results feed the navigation: clicking a result navigates to
 the section recorded in the result's entry, then clears the search box and
 hides the results panel.
 */
module App {
  import opened Seqs
  import opened Content
  import opened SearchIndex
  import opened Search
  import opened Navigation

  /** The page the navigation sees when its sections are the indexed ones. */
  function PageOf(content: seq<Section>, navItems: seq<NavItem>): Page {
    Page(SectionIds(content), navItems)
  }

  /** What a click on a result touches: the navigation state, the results
      panel and the text of the search box. */
  datatype Ui = Ui(nav: NavState, panel: Panel, input: string)

  /** The click handler of a rendered result: `navigateTo` the section in the
      item's `data-section`, empty the search box, hide the panel. */
  function ClickResult(page: Page, ui: Ui, item: ResultItem, narrow: bool): (r: Ui)
    ensures Exists(page, item.section) ==>
      r.nav.activeSections == {item.section} && r.nav.current == item.section
    ensures !Exists(page, item.section) ==>
      r.nav.activeSections == {} && r.nav.current == ui.nav.current
    ensures r.nav.history == ui.nav.history + [HistoryEntry(item.section)]
    ensures r.input == "" && !r.panel.shown && r.panel.content == ui.panel.content
  {
    Ui(NavigateTo(page, ui.nav, item.section, narrow), ui.panel.(shown := false), "")
  }

  /** Every result a search over the built index shows leads to a section of
      the page: clicking it makes exactly that section active and current,
      unless the section has no id, which `getElementById` cannot find. */
  lemma ResultOpensItsSection(
    content: seq<Section>, navItems: seq<NavItem>, query: string, s: NavState, narrow: bool)
    ensures var o := PerformSearch(BuildSearchIndex(content), query);
      o.Found? ==> forall e :: e in o.results ==>
        var r := NavigateTo(PageOf(content, navItems), s, e.id, narrow);
        && (e.id != "" ==> r.activeSections == {e.id} && r.current == e.id)
        && (e.id == "" ==> r.activeSections == {} && r.current == s.current)
  {
    var index := BuildSearchIndex(content);
    var o := PerformSearch(index, query);
    if o.Found? {
      EntriesBelongToSections(content);
      forall e | e in o.results
        ensures e in index
      {
        SubsequenceMember(o.results, index, e);
      }
    }
  }

  /** Clicking any item of the shown results panel opens the item's section
      (when it has an id), empties the search box and hides the panel. */
  lemma ClickOpensResult(
    content: seq<Section>, navItems: seq<NavItem>, query: string, ui: Ui, narrow: bool)
    ensures var p := UpdatePanel(ui.panel, BuildSearchIndex(content), query);
      p.shown && p.content.Items? ==> forall item :: item in p.content.items ==>
        var r := ClickResult(PageOf(content, navItems), ui.(panel := p), item, narrow);
        && (item.section != "" ==> r.nav.activeSections == {item.section} && r.nav.current == item.section)
        && (item.section == "" ==> r.nav.activeSections == {} && r.nav.current == ui.nav.current)
        && r.input == "" && !r.panel.shown
  {
    var index := BuildSearchIndex(content);
    var p := UpdatePanel(ui.panel, index, query);
    if p.shown && p.content.Items? {
      ShownItemsComeFromIndex(ui.panel, index, query);
      EntriesBelongToSections(content);
      forall item | item in p.content.items
        ensures item.section in SectionIds(content)
      {
        var e :| e in index && e.id == item.section;
      }
    }
  }
}

=== FILE: content.dfy ===
/**
 The page content the script reads, as plain data instead of a document tree:
 the `.section` elements in document order, each with what the index builder
 looks at.
 */
module Content {
  import opened Wrappers

  /** An `h2` or `h3` heading: its text, and the text of the element right after
      it when there is one. */
  datatype Heading = Heading(text: string, next: Option<string>)

  /** A `tbody` row: the text of each of its `td` cells, in order. */
  datatype Row = Row(cells: seq<string>)

  /** A `.section` element: its id, the text of its `.section-title` element when
      it has one, its whole text content, and its headings and table body rows in
      document order. */
  datatype Section = Section(
    id: string,
    title: Option<string>,
    text: string,
    headings: seq<Heading>,
    rows: seq<Row>)
}

=== FILE: highlight.dfy ===
/**
 `highlightMatch`: a global, case-insensitive replacement that wraps every
 occurrence of the query in a title between a start and an end marker. The
 title is first cut into segments (plain characters and matched runs), scanning
 left to right and never overlapping; the segments are then rendered as a
 sequence of characters and markers.
 */
module Highlight {
  import opened Text
  import opened RegexEscape

  /** A piece of the title: one character outside any match, or one matched run
      (kept with the title's own letter case). */
  datatype Segment = Plain(c: char) | Hit(s: string)

  /** The rendered title: characters, and the markers around a matched run. */
  datatype Token = Char(c: char) | Open | Close

  /** The text of `t` starting here matches `q` when letter case is ignored. */
  predicate StartsWithIgnoringCase(t: string, q: string) {
    |q| <= |t| && SameIgnoringCase(t[..|q|], q)
  }

  /** Two strings are equal once both are lower-cased. */
  predicate SameIgnoringCase(a: string, b: string) {
    Lower(a) == Lower(b)
  }

  /** The title text the segments cover. */
  function SegmentsText(segs: seq<Segment>): string {
    if |segs| == 0 then ""
    else SegmentText(segs[0]) + SegmentsText(segs[1..])
  }

  /** The number of matched runs. */
  function Hits(segs: seq<Segment>): nat {
    if |segs| == 0 then 0 else (if segs[0].Hit? then 1 else 0) + Hits(segs[1..])
  }

  /** The text of a segment. */
  function SegmentText(x: Segment): string {
    match x case Plain(c) => [c] case Hit(s) => s
  }

  lemma SegmentsTextCons(x: Segment, rest: seq<Segment>)
    ensures SegmentsText([x] + rest) == SegmentText(x) + SegmentsText(rest)
  {
    assert ([x] + rest)[1..] == rest;
  }

  /** The scan of a global regex replace on a literal pattern: at each position,
      if the text there matches the pattern, the match becomes a run and the
      scan continues after it; otherwise one character is copied. An empty
      pattern matches at every position, including the end, and the scan then
      steps over one character. */
  function Segments(t: string, q: string): (r: seq<Segment>)
    ensures |q| == 0 ==> |r| == 2 * |t| + 1
    ensures |q| > 0 ==> |r| <= |t|
    decreases |t|
  {
    if |q| == 0 then
      if |t| == 0 then [Hit("")] else [Hit(""), Plain(t[0])] + Segments(t[1..], q)
    else if |t| == 0 then []
    else if StartsWithIgnoringCase(t, q) then [Hit(t[..|q|])] + Segments(t[|q|..], q)
    else [Plain(t[0])] + Segments(t[1..], q)
  }

  /** The segments cover exactly the title, in order. */
  lemma {:induction false} SegmentsCoverTitle(t: string, q: string)
    ensures SegmentsText(Segments(t, q)) == t
    decreases |t|
  {
    if |t| > 0 {
      if |q| == 0 || !StartsWithIgnoringCase(t, q) {
        SegmentsCoverTitle(t[1..], q);
        CoverAfterOne(t, q);
      } else {
        SegmentsCoverTitle(t[|q|..], q);
        assert Segments(t, q) == [Hit(t[..|q|])] + Segments(t[|q|..], q);
        CoverAfterMatch(t, |q|, Segments(t, q), Segments(t[|q|..], q));
      }
    }
  }

  /** Helper for `SegmentsCoverTitle`: the scan copies one character. */
  lemma CoverAfterOne(t: string, q: string)
    requires |t| > 0 && (|q| == 0 || !StartsWithIgnoringCase(t, q))
    requires SegmentsText(Segments(t[1..], q)) == t[1..]
    ensures SegmentsText(Segments(t, q)) == t
  {
    var rest := Segments(t[1..], q);
    CoverStep(Plain(t[0]), rest, [t[0]], t[1..]);
    HeadTail(t);
    if |q| == 0 {
      CoverStep(Hit(""), [Plain(t[0])] + rest, "", t);
      assert Segments(t, q) == [Hit("")] + ([Plain(t[0])] + rest);
    }
  }

  /** Helper for `SegmentsCoverTitle`: the scan wraps one match. */
  lemma CoverAfterMatch(t: string, n: nat, segs: seq<Segment>, rest: seq<Segment>)
    requires n <= |t| && segs == [Hit(t[..n])] + rest
    requires SegmentsText(rest) == t[n..]
    ensures SegmentsText(segs) == t
  {
    CoverStep(Hit(t[..n]), rest, t[..n], t[n..]);
    assert t[..n] + t[n..] == t;
  }

  lemma HeadTail(t: string)
    requires |t| > 0
    ensures [t[0]] + t[1..] == t
  {
  }

  /** Helper for `SegmentsCoverTitle`: one more segment in front. */
  lemma CoverStep(x: Segment, rest: seq<Segment>, head: string, tail: string)
    requires SegmentText(x) == head && SegmentsText(rest) == tail
    ensures SegmentsText([x] + rest) == head + tail
  {
    SegmentsTextCons(x, rest);
  }

  /** Every matched run equals the query once letter case is ignored. */
  predicate RunsMatch(segs: seq<Segment>, q: string) {
    forall i :: 0 <= i < |segs| && segs[i].Hit? ==> SameIgnoringCase(segs[i].s, q)
  }

  lemma {:induction false} SegmentsMatchQuery(t: string, q: string)
    ensures RunsMatch(Segments(t, q), q)
    decreases |t|
  {
    if |t| == 0 {
    } else if |q| == 0 {
      var rest := Segments(t[1..], q);
      SegmentsMatchQuery(t[1..], q);
      RunsOfCons(Plain(t[0]), rest, q);
      RunsOfCons(Hit(""), [Plain(t[0])] + rest, q);
      assert Segments(t, q) == [Hit("")] + ([Plain(t[0])] + rest);
    } else if StartsWithIgnoringCase(t, q) {
      SegmentsMatchQuery(t[|q|..], q);
      RunsOfCons(Hit(t[..|q|]), Segments(t[|q|..], q), q);
    } else {
      SegmentsMatchQuery(t[1..], q);
      RunsOfCons(Plain(t[0]), Segments(t[1..], q), q);
    }
  }

  /** Helper for `SegmentsMatchQuery`: one more segment in front. */
  lemma RunsOfCons(x: Segment, rest: seq<Segment>, q: string)
    requires x.Hit? ==> SameIgnoringCase(x.s, q)
    requires RunsMatch(rest, q)
    ensures RunsMatch([x] + rest, q)
  {
    var r := [x] + rest;
    forall i | 0 <= i < |r| && r[i].Hit?
      ensures SameIgnoringCase(r[i].s, q)
    {
      if i > 0 {
        assert r[i] == rest[i - 1];
      }
    }
  }

  /** Matching is leftmost and non-overlapping: no character left outside a
      run starts an occurrence of the query in the rest of the title. */
  predicate NoMissedMatch(segs: seq<Segment>, q: string) {
    forall i :: 0 <= i < |segs| && segs[i].Plain? ==> !StartsWithIgnoringCase(SegmentsText(segs[i..]), q)
  }

  lemma {:induction false} SegmentsLeftmost(t: string, q: string)
    requires |q| > 0
    ensures NoMissedMatch(Segments(t, q), q)
    decreases |t|
  {
    if |t| > 0 {
      if StartsWithIgnoringCase(t, q) {
        SegmentsLeftmost(t[|q|..], q);
        NoMissedMatchCons(Hit(t[..|q|]), Segments(t[|q|..], q), q);
      } else {
        var rest := Segments(t[1..], q);
        SegmentsLeftmost(t[1..], q);
        SegmentsCoverTitle(t[1..], q);
        CoverStep(Plain(t[0]), rest, [t[0]], t[1..]);
        HeadTail(t);
        NoMissedMatchCons(Plain(t[0]), rest, q);
      }
    }
  }

  /** Helper for `SegmentsLeftmost`: one more segment in front. */
  lemma NoMissedMatchCons(x: Segment, rest: seq<Segment>, q: string)
    requires x.Plain? ==> !StartsWithIgnoringCase(SegmentsText([x] + rest), q)
    requires NoMissedMatch(rest, q)
    ensures NoMissedMatch([x] + rest, q)
  {
    var r := [x] + rest;
    forall i | 0 <= i < |r| && r[i].Plain?
      ensures !StartsWithIgnoringCase(SegmentsText(r[i..]), q)
    {
      if i == 0 {
        assert r[0..] == r;
      } else {
        assert r[i..] == rest[i - 1..];
      }
    }
  }

  /** Markers around every matched run, characters elsewhere. */
  function Render(segs: seq<Segment>): (r: seq<Token>)
    ensures |r| == |SegmentsText(segs)| + 2 * Hits(segs)
    ensures MarkedRuns(r) == HitTexts(segs)
  {
    if |segs| == 0 then []
    else
      var rest := Render(segs[1..]);
      match segs[0]
      case Plain(c) =>
        MarkedRunsOfPlain(c, rest);
        [Char(c)] + rest
      case Hit(s) =>
        MarkedRunsOfHit(s, rest);
        [Open] + Chars(s) + [Close] + rest
  }

  /** Rendering works segment by segment: the rendering of a concatenation is
      the concatenation of the renderings. */
  lemma {:induction false} RenderConcat(a: seq<Segment>, b: seq<Segment>)
    ensures Render(a + b) == Render(a) + Render(b)
    decreases |a|
  {
    if |a| == 0 {
      assert a + b == b;
    } else {
      var x, tail := a[0], a[1..];
      assert Render(a + b) == Render([x]) + Render(tail + b) by {
        assert a + b == [x] + (tail + b);
        RenderCons(x, tail + b);
      }
      assert Render(a) == Render([x]) + Render(tail) by {
        assert a == [x] + tail;
        RenderCons(x, tail);
      }
      RenderConcat(tail, b);
      Regroup(Render(a + b), Render(a), Render([x]), Render(tail + b), Render(tail), Render(b));
    }
  }

  /** Helper for `RenderConcat`: regrouping the renderings. */
  lemma Regroup(ab: seq<Token>, a: seq<Token>, h: seq<Token>, tb: seq<Token>, t: seq<Token>, b: seq<Token>)
    requires ab == h + tb && a == h + t && tb == t + b
    ensures ab == a + b
  {
  }

  /** Helper for `RenderConcat`: the first segment is rendered in front. */
  lemma RenderCons(x: Segment, rest: seq<Segment>)
    ensures Render([x] + rest) == Render([x]) + Render(rest)
  {
    var xs := [x] + rest;
    assert xs[0] == x && xs[1..] == rest;
    RenderOne(x);
    if x.Hit? {
      assert Render(xs) == [Open] + Chars(x.s) + [Close] + Render(rest);
    } else {
      assert Render(xs) == [Char(x.c)] + Render(rest);
    }
  }

  /** Helper for `RenderInPlace`: how one segment is rendered. */
  lemma RenderOne(x: Segment)
    ensures x.Hit? ==> Render([x]) == [Open] + Chars(x.s) + [Close]
    ensures x.Plain? ==> Render([x]) == [Char(x.c)]
  {
    assert [x][1..] == [];
  }

  /** Helper for `RenderInPlace`: the rendering splits around segment `k`. */
  lemma RenderSplit(segs: seq<Segment>, k: nat)
    requires k < |segs|
    ensures Render(segs) == Render(segs[..k]) + (Render([segs[k]]) + Render(segs[k + 1..]))
  {
    var before, x, after := segs[..k], segs[k], segs[k + 1..];
    assert Render(segs) == Render(before + ([x] + after)) by {
      SplitAt(segs, k);
    }
    RenderConcat(before, [x] + after);
    RenderCons(x, after);
    Rewrite(Render(segs), Render(before + ([x] + after)), Render(before), Render([x] + after),
      Render([x]), Render(after));
  }

  /** Helper for `RenderSplit`: a sequence around its element `k`. */
  lemma SplitAt(segs: seq<Segment>, k: nat)
    requires k < |segs|
    ensures segs == segs[..k] + ([segs[k]] + segs[k + 1..])
  {
    assert segs[k..] == [segs[k]] + segs[k + 1..];
    assert segs == segs[..k] + segs[k..];
  }

  /** Helper for `RenderSplit`: chaining the three equalities. */
  lemma Rewrite(all: seq<Token>, joined: seq<Token>, h: seq<Token>, rest: seq<Token>, m: seq<Token>, t: seq<Token>)
    requires all == joined && joined == h + rest && rest == m + t
    ensures all == h + (m + t)
  {
  }

  /** Helper for `RenderInPlace`: regrouping a wrapped run. */
  lemma ConcatAssoc5(a: seq<Token>, b: seq<Token>, c: seq<Token>, d: seq<Token>, e: seq<Token>)
    ensures a + ((b + c + d) + e) == a + b + c + d + e
  {
  }

  /** Each segment is rendered where it occurs: a matched run is wrapped in
      markers in place, a plain character is copied in place, and what comes
      before it in the rendering is exactly the title text before it plus
      markers. */
  lemma RenderInPlace(segs: seq<Segment>, k: nat)
    requires k < |segs|
    ensures segs[k].Hit? ==>
      Render(segs) == Render(segs[..k]) + [Open] + Chars(segs[k].s) + [Close] + Render(segs[k + 1..])
    ensures segs[k].Plain? ==>
      Render(segs) == Render(segs[..k]) + [Char(segs[k].c)] + Render(segs[k + 1..])
    ensures StripMarkers(Render(segs[..k])) == SegmentsText(segs[..k])
  {
    RenderSplit(segs, k);
    RenderOne(segs[k]);
    var head, tail := Render(segs[..k]), Render(segs[k + 1..]);
    if segs[k].Hit? {
      ConcatAssoc5(head, [Open], Chars(segs[k].s), [Close], tail);
    } else {
      assert head + ([Char(segs[k].c)] + tail) == head + [Char(segs[k].c)] + tail;
    }
    assert StripMarkers(head) == SegmentsText(segs[..k]) by {
      RenderFacts(segs[..k]);
    }
  }

  /** Helper for `Render`: a character outside the markers opens no run. */
  lemma MarkedRunsOfPlain(c: char, rest: seq<Token>)
    ensures MarkedRuns([Char(c)] + rest) == MarkedRuns(rest)
  {
    assert ([Char(c)] + rest)[1..] == rest;
  }

  /** Helper for `Render`: a rendered run is read back as one marked run. */
  lemma MarkedRunsOfHit(s: string, rest: seq<Token>)
    ensures MarkedRuns([Open] + Chars(s) + [Close] + rest) == [s] + MarkedRuns(rest)
  {
    var t := [Open] + Chars(s) + [Close] + rest;
    assert t[0] == Open;
    assert t[1..] == Chars(s) + [Close] + rest;
    CloseAfterChars(s, rest);
  }

  /** The texts of the matched runs, in order. */
  function HitTexts(segs: seq<Segment>): seq<string> {
    if |segs| == 0 then [] else (if segs[0].Hit? then [segs[0].s] else []) + HitTexts(segs[1..])
  }

  /** The characters before the first end marker. */
  function UntilClose(tokens: seq<Token>): string {
    if |tokens| == 0 then ""
    else match tokens[0]
      case Close => ""
      case Char(c) => [c] + UntilClose(tokens[1..])
      case Open => UntilClose(tokens[1..])
  }

  /** What follows the first end marker. */
  function AfterClose(tokens: seq<Token>): (r: seq<Token>)
    ensures |r| <= |tokens|
  {
    if |tokens| == 0 then []
    else match tokens[0]
      case Close => tokens[1..]
      case _ => AfterClose(tokens[1..])
  }

  /** The text each start marker opens, up to the end marker that closes it,
      in order. */
  function MarkedRuns(tokens: seq<Token>): seq<string>
    decreases |tokens|
  {
    if |tokens| == 0 then []
    else match tokens[0]
      case Open => [UntilClose(tokens[1..])] + MarkedRuns(AfterClose(tokens[1..]))
      case _ => MarkedRuns(tokens[1..])
  }

  /** A run's characters followed by its end marker: the run is read up to
      the marker, and reading resumes right after it. */
  lemma {:induction false} CloseAfterChars(s: string, rest: seq<Token>)
    ensures UntilClose(Chars(s) + [Close] + rest) == s
    ensures AfterClose(Chars(s) + [Close] + rest) == rest
    decreases |s|
  {
    var t := Chars(s) + [Close] + rest;
    if |s| == 0 {
      assert t == [Close] + rest;
      assert t[1..] == rest;
    } else {
      assert t[0] == Char(s[0]);
      assert t[1..] == Chars(s[1..]) + [Close] + rest;
      CloseAfterChars(s[1..], rest);
      assert [s[0]] + s[1..] == s;
    }
  }

  /** Every text in `runs` equals the query once letter case is ignored. */
  predicate AllMatch(runs: seq<string>, q: string) {
    forall j :: 0 <= j < |runs| ==> SameIgnoringCase(runs[j], q)
  }

  /** When every matched run of the segments equals the query ignoring case,
      so does every text the markers wrap. */
  lemma {:induction false} HitTextsMatch(segs: seq<Segment>, q: string)
    requires RunsMatch(segs, q)
    ensures AllMatch(HitTexts(segs), q)
    decreases |segs|
  {
    if |segs| > 0 {
      assert forall i :: 0 <= i < |segs| - 1 ==> segs[1..][i] == segs[i + 1];
      HitTextsMatch(segs[1..], q);
      var head := if segs[0].Hit? then [segs[0].s] else [];
      assert AllMatch(head, q);
      var all := head + HitTexts(segs[1..]);
      assert forall j :: |head| <= j < |all| ==> all[j] == HitTexts(segs[1..])[j - |head|];
    }
  }

  function Chars(s: string): (r: seq<Token>)
    ensures |r| == |s|
    ensures forall i :: 0 <= i < |s| ==> r[i] == Char(s[i])
  {
    seq(|s|, i requires 0 <= i < |s| => Char(s[i]))
  }

  /** The text left once the markers are deleted. */
  function StripMarkers(tokens: seq<Token>): string {
    if |tokens| == 0 then ""
    else (match tokens[0] case Char(c) => [c] case _ => "") + StripMarkers(tokens[1..])
  }

  /** The markers pair up: an opening marker is never followed by another
      opening marker before its closing one, and every opened run is closed.
      `inside` says whether a run is open at this point. */
  predicate WellBracketed(tokens: seq<Token>, inside: bool) {
    if |tokens| == 0 then !inside
    else match tokens[0]
      case Char(_) => WellBracketed(tokens[1..], inside)
      case Open => !inside && WellBracketed(tokens[1..], true)
      case Close => inside && WellBracketed(tokens[1..], false)
  }

  lemma {:induction false} StripConcat(a: seq<Token>, b: seq<Token>)
    ensures StripMarkers(a + b) == StripMarkers(a) + StripMarkers(b)
    decreases |a|
  {
    if |a| == 0 {
      assert a + b == b;
    } else {
      assert (a + b)[0] == a[0] && (a + b)[1..] == a[1..] + b;
      StripConcat(a[1..], b);
    }
  }

  lemma {:induction false} StripChars(s: string)
    ensures StripMarkers(Chars(s)) == s
    decreases |s|
  {
    if |s| > 0 {
      assert Chars(s)[1..] == Chars(s[1..]);
      StripChars(s[1..]);
      assert [s[0]] + s[1..] == s;
    }
  }

  lemma {:induction false} WellBracketedConcat(a: seq<Token>, b: seq<Token>)
    requires WellBracketed(a, false) && WellBracketed(b, false)
    ensures WellBracketed(a + b, false)
    decreases |a|
  {
    if |a| > 0 {
      assert (a + b)[0] == a[0] && (a + b)[1..] == a[1..] + b;
      match a[0]
      case Char(_) => WellBracketedConcat(a[1..], b);
      case Open => OpenRunConcat(a[1..], b);
    } else {
      assert a + b == b;
    }
  }

  /** Helper for `WellBracketedConcat`: a run that is open at the start of `a`. */
  lemma {:induction false} OpenRunConcat(a: seq<Token>, b: seq<Token>)
    requires WellBracketed(a, true) && WellBracketed(b, false)
    ensures WellBracketed(a + b, true)
    decreases |a|
  {
    assert (a + b)[0] == a[0] && (a + b)[1..] == a[1..] + b;
    match a[0]
    case Char(_) => OpenRunConcat(a[1..], b);
    case Close => WellBracketedConcat(a[1..], b);
  }

  lemma {:induction false} CharsInside(s: string)
    ensures WellBracketed(Chars(s) + [Close], true)
    decreases |s|
  {
    if |s| > 0 {
      assert (Chars(s) + [Close])[1..] == Chars(s[1..]) + [Close];
      CharsInside(s[1..]);
    } else {
      assert Chars(s) + [Close] == [Close];
    }
  }

  /** Rendering keeps the text: deleting the markers gives back the segments'
      text; and the markers it places pair up without nesting. */
  lemma {:induction false} RenderFacts(segs: seq<Segment>)
    ensures StripMarkers(Render(segs)) == SegmentsText(segs)
    ensures WellBracketed(Render(segs), false)
    decreases |segs|
  {
    if |segs| > 0 {
      RenderFacts(segs[1..]);
      var rest := Render(segs[1..]);
      match segs[0]
      case Plain(c) =>
        StripConcat([Char(c)], rest);
        WellBracketedConcat([Char(c)], rest);
      case Hit(s) =>
        var head := [Open] + Chars(s) + [Close];
        HitFacts(s);
        StripConcat(head, rest);
        WellBracketedConcat(head, rest);
    }
  }

  /** One matched run, rendered: its text between two markers. */
  lemma HitFacts(s: string)
    ensures StripMarkers([Open] + Chars(s) + [Close]) == s
    ensures WellBracketed([Open] + Chars(s) + [Close], false)
  {
    var head := [Open] + Chars(s) + [Close];
    StripConcat([Open] + Chars(s), [Close]);
    StripConcat([Open], Chars(s));
    StripChars(s);
    CharsInside(s);
    assert head[1..] == Chars(s) + [Close];
  }

  /** `highlightMatch(text, query)`: the regex built from the escaped query
      captures the query itself, so the title is cut exactly at the
      case-insensitive occurrences of the raw query, whatever characters it
      holds; deleting the markers gives the title back. */
  function HighlightMatch(text: string, query: string): (r: seq<Token>)
    ensures r == Render(Segments(text, query))
    ensures StripMarkers(r) == text
    ensures WellBracketed(r, false)
  {
    PatternCapturesQuery(query);
    var literal := CapturedText(CapturePattern(query)).value;
    var segs := Segments(text, literal);
    SegmentsCoverTitle(text, literal);
    RenderFacts(segs);
    Render(segs)
  }

  /** Every part of the title that `highlightMatch` wraps between markers
      equals the query once letter case is ignored, and the wrapped parts are
      the matched runs of the scan, in order. */
  lemma HighlightRunsMatchQuery(text: string, query: string)
    ensures MarkedRuns(HighlightMatch(text, query)) == HitTexts(Segments(text, query))
    ensures AllMatch(MarkedRuns(HighlightMatch(text, query)), query)
  {
    SegmentsMatchQuery(text, query);
    HitTextsMatch(Segments(text, query), query);
  }

  /** Two queries that agree once lower-cased cut every title the same way. */
  lemma {:induction false} SegmentsIgnoreQueryCase(t: string, q1: string, q2: string)
    requires Lower(q1) == Lower(q2)
    ensures Segments(t, q1) == Segments(t, q2)
    decreases |t|
  {
    assert |q1| == |Lower(q1)| == |q2|;
    if |t| > 0 {
      if |q1| == 0 {
        SegmentsIgnoreQueryCase(t[1..], q1, q2);
      } else if StartsWithIgnoringCase(t, q1) {
        SegmentsIgnoreQueryCase(t[|q1|..], q1, q2);
      } else {
        SegmentsIgnoreQueryCase(t[1..], q1, q2);
      }
    }
  }

  lemma HighlightIgnoresQueryCase(t: string, q1: string, q2: string)
    requires Lower(q1) == Lower(q2)
    ensures HighlightMatch(t, q1) == HighlightMatch(t, q2)
  {
    PatternCapturesQuery(q1);
    PatternCapturesQuery(q2);
    SegmentsIgnoreQueryCase(t, q1, q2);
  }
}

=== FILE: navigation.dfy ===
/**
 The navigation state machine: which section and which menu entry are active,
 which menu groups are open, the current section, the pushed history entries,
 the URL fragment and the sidebar. `navigateTo` is the one transition; a change
 of fragment resolves the fragment and calls it.
 */
module Navigation {
  import opened Wrappers

  /** A `.nav-item` menu entry: the section id in its `data-section` attribute,
      and the `.nav-group` it sits in, if any. */
  datatype NavItem = NavItem(section: string, group: Option<nat>)

  /** The fixed parts of the page: the ids of the sections, and the menu entries
      in document order (a menu entry is known by its position). */
  datatype Page = Page(sections: set<string>, navItems: seq<NavItem>)

  /** The state object pushed with each history entry. */
  datatype HistoryEntry = HistoryEntry(section: string)

  datatype NavState = NavState(
    activeSections: set<string>,
    activeNavItems: set<nat>,
    openGroups: set<nat>,
    current: string,
    history: seq<HistoryEntry>,
    hash: string,
    sidebarOpen: bool)

  /** The section shown when the fragment names no section. */
  const Home := "home"

  /** The first menu entry, at or after position `from`, that targets `id`:
      what `querySelector` returns for a `data-section` selector. */
  function FindNavItemFrom(items: seq<NavItem>, id: string, from: nat): (r: Option<nat>)
    requires from <= |items|
    ensures r.Some? ==>
      && from <= r.value < |items| && items[r.value].section == id
      && forall j :: from <= j < r.value ==> items[j].section != id
    ensures r.None? ==> forall j :: from <= j < |items| ==> items[j].section != id
    decreases |items| - from
  {
    if from == |items| then None
    else if items[from].section == id then Some(from)
    else FindNavItemFrom(items, id, from + 1)
  }

  function FindNavItem(items: seq<NavItem>, id: string): Option<nat> {
    FindNavItemFrom(items, id, 0)
  }

  /** `location.hash` after pushing `#id`: empty for an empty fragment. */
  function HashOf(id: string): string {
    if id == "" then "" else "#" + id
  }

  /** `location.hash.slice(1)`. */
  function FragmentOf(hash: string): string {
    if |hash| == 0 then "" else hash[1..]
  }

  /** The group opened by navigating to `id`: the group of the first menu
      entry targeting `id`, when that entry has one. */
  function GroupOpenedBy(page: Page, id: string): Option<nat> {
    match FindNavItem(page.navItems, id)
    case Some(k) => page.navItems[k].group
    case None => None
  }

  /** `getElementById(id)` finds a section: the id is one of the sections'
      ids, and not the empty string, which no element is found by. */
  predicate Exists(page: Page, id: string) {
    id != "" && id in page.sections
  }

  /** The menu entries `navigateTo(id)` marks active: the first one that
      targets `id`, if any. */
  function ActiveItemsFor(page: Page, id: string): set<nat> {
    match FindNavItem(page.navItems, id)
    case Some(k) => {k}
    case None => {}
  }

  /** `navigateTo(id)`. Every section and menu entry is deactivated first; the
      section is activated (and becomes current, and closes the sidebar on a
      narrow screen) only if it exists; the menu entry, and its group, only if
      one targets `id`. A history entry and the fragment are written whether or
      not the section exists. */
  function NavigateTo(page: Page, s: NavState, id: string, narrow: bool): (r: NavState)
    ensures Exists(page, id) ==> r.activeSections == {id} && r.current == id
    ensures !Exists(page, id) ==> r.activeSections == {} && r.current == s.current
    ensures r.sidebarOpen <==> s.sidebarOpen && !(Exists(page, id) && narrow)
    ensures r.activeNavItems == ActiveItemsFor(page, id)
    ensures forall k :: k in r.activeNavItems ==> k < |page.navItems| && page.navItems[k].section == id
    ensures |r.activeNavItems| <= 1
    ensures (exists k :: 0 <= k < |page.navItems| && page.navItems[k].section == id) <==> r.activeNavItems != {}
    ensures s.openGroups <= r.openGroups
    ensures GroupOpenedBy(page, id).Some? ==> GroupOpenedBy(page, id).value in r.openGroups
    ensures forall g :: g in r.openGroups && g !in s.openGroups ==> GroupOpenedBy(page, id) == Some(g)
    ensures r.history == s.history + [HistoryEntry(id)]
    ensures r.hash == HashOf(id) && FragmentOf(r.hash) == id
  {
    var target := FindNavItem(page.navItems, id);
    var found := id != "" && id in page.sections;
    NavState(
      activeSections := if found then {id} else {},
      activeNavItems := if target.Some? then {target.value} else {},
      openGroups := match GroupOpenedBy(page, id)
        case Some(g) => s.openGroups + {g}
        case None => s.openGroups,
      current := if found then id else s.current,
      history := s.history + [HistoryEntry(id)],
      hash := HashOf(id),
      sidebarOpen := if found && narrow then false else s.sidebarOpen)
  }

  /** The id `handleHashChange` navigates to: the fragment when it names a
      section, `home` otherwise. */
  function HashTarget(page: Page, hash: string): (t: string)
    ensures t in page.sections || t == Home
    ensures FragmentOf(hash) != "" && FragmentOf(hash) in page.sections ==> t == FragmentOf(hash)
    ensures FragmentOf(hash) == "" || FragmentOf(hash) !in page.sections ==> t == Home
  {
    var fragment := FragmentOf(hash);
    if Exists(page, fragment) then fragment else Home
  }

  /** `handleHashChange`: navigate to the section the fragment names. */
  function HandleHashChange(page: Page, s: NavState, narrow: bool): (r: NavState)
    ensures var f := FragmentOf(s.hash);
      f != "" && f in page.sections ==> r.current == f && r.activeSections == {f}
    ensures |r.history| == |s.history| + 1
    ensures var last := r.history[|r.history| - 1].section; last in page.sections || last == Home
    ensures Home in page.sections ==> |r.activeSections| == 1 && r.current in page.sections
    ensures Home !in page.sections && !Exists(page, FragmentOf(s.hash)) ==>
      r.activeSections == {} && r.current == s.current
  {
    NavigateTo(page, s, HashTarget(page, s.hash), narrow)
  }

  /** Page load: `currentSection` starts as `home`, then the fragment is
      resolved once. `markup` is the state the page's markup starts in. */
  function Load(page: Page, markup: NavState, narrow: bool): (r: NavState)
    ensures Home in page.sections ==> |r.activeSections| == 1
    ensures r.current in page.sections || r.current == Home
  {
    HandleHashChange(page, markup.(current := Home), narrow)
  }

  /** A deep link: after navigating to an existing, non-empty section id, a
      fresh load of the page with the resulting fragment shows that section. */
  lemma DeepLinkRoundTrip(page: Page, s: NavState, id: string, narrow: bool, markup: NavState, narrowAtLoad: bool)
    requires Exists(page, id)
    ensures var r := Load(page, markup.(hash := NavigateTo(page, s, id, narrow).hash), narrowAtLoad);
      r.current == id && r.activeSections == {id}
  {
    var hash := NavigateTo(page, s, id, narrow).hash;
    assert HashTarget(page, hash) == id;
  }

  /** Navigating to the same section twice leaves the state of one navigation,
      except that the history holds one more entry for it. */
  lemma NavigateTwice(page: Page, s: NavState, id: string, narrow: bool)
    ensures var once := NavigateTo(page, s, id, narrow);
      NavigateTo(page, once, id, narrow) == once.(history := once.history + [HistoryEntry(id)])
  {
    var once := NavigateTo(page, s, id, narrow);
    match GroupOpenedBy(page, id)
    case Some(g) => assert once.openGroups + {g} == once.openGroups;
    case None =>
  }

  /** A run of navigations, one after another. */
  function NavigateAll(page: Page, s: NavState, ids: seq<string>, narrow: bool): NavState
    decreases |ids|
  {
    if |ids| == 0 then s else NavigateAll(page, NavigateTo(page, s, ids[0], narrow), ids[1..], narrow)
  }

  /** The history entries a run of navigations pushes, one per id, in order. */
  function HistoryOf(ids: seq<string>): seq<HistoryEntry> {
    if |ids| == 0 then [] else [HistoryEntry(ids[0])] + HistoryOf(ids[1..])
  }

  /** After a run of navigations to existing sections, exactly the last one
      is active and current. */
  lemma {:induction false} NavigateAllEndsAtLast(page: Page, s: NavState, ids: seq<string>, narrow: bool)
    requires |ids| > 0
    requires forall i :: 0 <= i < |ids| ==> Exists(page, ids[i])
    ensures var r := NavigateAll(page, s, ids, narrow);
      r.activeSections == {ids[|ids| - 1]} && r.current == ids[|ids| - 1]
    decreases |ids|
  {
    var tail := ids[1..];
    if |tail| > 0 {
      assert forall i :: 0 <= i < |tail| ==> tail[i] == ids[i + 1];
      NavigateAllEndsAtLast(page, NavigateTo(page, s, ids[0], narrow), tail, narrow);
      assert tail[|tail| - 1] == ids[|ids| - 1];
    }
  }

  /** Every navigation of a run adds its history entry, in order, and no group
      that was open gets closed. */
  lemma {:induction false} NavigateAllHistory(page: Page, s: NavState, ids: seq<string>, narrow: bool)
    ensures var r := NavigateAll(page, s, ids, narrow);
      r.history == s.history + HistoryOf(ids) && s.openGroups <= r.openGroups
    decreases |ids|
  {
    if |ids| > 0 {
      var next := NavigateTo(page, s, ids[0], narrow);
      assert NavigateAll(page, s, ids, narrow) == NavigateAll(page, next, ids[1..], narrow);
      NavigateAllHistory(page, next, ids[1..], narrow);
      HistoryAppend(s.history, ids);
    }
  }

  /** Helper for `NavigateAllHistory`: the entry of the first navigation,
      followed by those of the rest of the run. */
  lemma HistoryAppend(before: seq<HistoryEntry>, ids: seq<string>)
    requires |ids| > 0
    ensures (before + [HistoryEntry(ids[0])]) + HistoryOf(ids[1..]) == before + HistoryOf(ids)
  {
    var h := [HistoryEntry(ids[0])];
    assert HistoryOf(ids) == h + HistoryOf(ids[1..]);
  }

  /** Over a run of navigations to existing sections, exactly the last one is
      active and current; every navigation adds its history entry, in order;
      and no group that was open gets closed. */
  lemma NavigateAllFacts(page: Page, s: NavState, ids: seq<string>, narrow: bool)
    requires |ids| > 0
    requires forall i :: 0 <= i < |ids| ==> Exists(page, ids[i])
    ensures var r := NavigateAll(page, s, ids, narrow);
      && r.activeSections == {ids[|ids| - 1]}
      && r.current == ids[|ids| - 1]
      && r.history == s.history + HistoryOf(ids)
      && s.openGroups <= r.openGroups
  {
    NavigateAllEndsAtLast(page, s, ids, narrow);
    NavigateAllHistory(page, s, ids, narrow);
  }
}

=== FILE: regex_escape.dfy ===
/**
 Escaping a user query before it becomes a regular expression, and the small
 fragment of regular-expression syntax needed to say what the escaped pattern
 means: a run of literal characters, each either an ordinary character or a
 backslash followed by one of the syntax characters.
 */
module RegexEscape {
  import opened Wrappers

  /** The characters `escapeRegex` prefixes with a backslash: `. * + ? ^ $ { } ( ) | [ ] \`. */
  predicate IsSyntaxChar(c: char) {
    c in ".*+?^${}()|[]\\"
  }

  /** Number of syntax characters in `s`. */
  function CountSyntax(s: string): nat {
    if |s| == 0 then 0 else (if IsSyntaxChar(s[0]) then 1 else 0) + CountSyntax(s[1..])
  }

  /** `escapeRegex`: every syntax character gets one backslash in front of it,
      every other character is copied. */
  function EscapeRegex(s: string): (r: string)
    ensures |r| == |s| + CountSyntax(s)
    ensures CountSyntax(s) == 0 ==> r == s
  {
    if |s| == 0 then ""
    else (if IsSyntaxChar(s[0]) then ['\\', s[0]] else [s[0]]) + EscapeRegex(s[1..])
  }

  /** Escaping distributes over concatenation, so it works character by character. */
  lemma {:induction false} EscapeConcat(a: string, b: string)
    ensures EscapeRegex(a + b) == EscapeRegex(a) + EscapeRegex(b)
    decreases |a|
  {
    if |a| == 0 {
      assert a + b == b;
    } else {
      assert (a + b)[0] == a[0] && (a + b)[1..] == a[1..] + b;
      EscapeConcat(a[1..], b);
    }
  }

  /** The characters that act as operators wherever they stand in a pattern
      without the `u` flag: `^ $ \ . * + ? ( ) [ |`. A lone `]` or `}` is a
      literal character there. */
  predicate IsOperatorChar(c: char) {
    c in "^$\\.*+?()[|"
  }

  /** The literal string a pattern stands for, when the pattern is a run of
      literal atoms; `None` when it holds an operator, a `{` (which may open a
      quantifier), or an escape this fragment does not cover. A backslash
      before a syntax character stands for that character; `]`, `}` and every
      other character stand for themselves. */
  function LiteralText(p: string): (r: Option<string>)
    ensures r.Some? ==> |r.value| <= |p|
    decreases |p|
  {
    if |p| == 0 then Some("")
    else if p[0] == '\\' then
      if |p| >= 2 && IsSyntaxChar(p[1]) then
        match LiteralText(p[2..])
        case Some(t) => Some([p[1]] + t)
        case None => None
      else None
    else if IsOperatorChar(p[0]) || p[0] == '{' then None
    else
      match LiteralText(p[1..])
      case Some(t) => Some([p[0]] + t)
      case None => None
  }

  /** The pattern `highlightMatch` builds: the escaped query as one capture group. */
  function CapturePattern(query: string): string {
    "(" + EscapeRegex(query) + ")"
  }

  /** The literal text captured by a pattern of the form `( literal atoms )`. */
  function CapturedText(p: string): Option<string> {
    if |p| >= 2 && p[0] == '(' && p[|p| - 1] == ')' then LiteralText(p[1..|p| - 1]) else None
  }

  /** An escaped string is read back as exactly the original string: escaping
      turns any input into a pattern that matches only that literal text. */
  lemma {:induction false} EscapeIsLiteral(s: string)
    ensures LiteralText(EscapeRegex(s)) == Some(s)
    decreases |s|
  {
    if |s| > 0 {
      EscapeIsLiteral(s[1..]);
      var rest := EscapeRegex(s[1..]);
      if IsSyntaxChar(s[0]) {
        var e := ['\\', s[0]] + rest;
        assert EscapeRegex(s) == e;
        assert e[2..] == rest;
      } else {
        var e := [s[0]] + rest;
        assert EscapeRegex(s) == e;
        assert e[1..] == rest;
      }
      assert [s[0]] + s[1..] == s;
    }
  }

  /** The capture group built from any query captures exactly the query. */
  lemma PatternCapturesQuery(query: string)
    ensures CapturedText(CapturePattern(query)) == Some(query)
  {
    var p := CapturePattern(query);
    assert p[1..|p| - 1] == EscapeRegex(query);
    EscapeIsLiteral(query);
  }

  /** Without escaping, a query holding an operator character does not stand
      for itself: it either fails to be a literal pattern or denotes a shorter
      string. */
  lemma {:induction false} RawQueryIsNotLiteral(s: string, i: nat)
    requires i < |s| && IsOperatorChar(s[i])
    ensures LiteralText(s) != Some(s)
    decreases |s|
  {
    if LiteralText(s).Some? {
      if s[0] == '\\' {
        assert |LiteralText(s).value| <= |s| - 1 by {
          assert LiteralText(s).value == [s[1]] + LiteralText(s[2..]).value;
        }
      } else {
        assert i > 0 && s[1..][i - 1] == s[i];
        RawQueryIsNotLiteral(s[1..], i - 1);
        assert LiteralText(s).value == [s[0]] + LiteralText(s[1..]).value;
      }
    }
  }

  /** Conversely, a query with no operator character and no `{` stands for
      itself even unescaped; a lone `]` or `}` among its characters is read
      literally. */
  lemma {:induction false} PlainQueryIsLiteral(s: string)
    requires forall i :: 0 <= i < |s| ==> !IsOperatorChar(s[i]) && s[i] != '{'
    ensures LiteralText(s) == Some(s)
    decreases |s|
  {
    if |s| > 0 {
      assert !IsOperatorChar(s[0]) && s[0] != '{';
      assert forall i :: 0 <= i < |s| - 1 ==> s[1..][i] == s[i + 1];
      PlainQueryIsLiteral(s[1..]);
      assert [s[0]] + s[1..] == s;
    }
  }
}

=== FILE: search.dfy ===
/**
 The query engine (`performSearch`): a query shorter than two characters leaves
 the results panel hidden; a longer one is lower-cased, matched as a substring
 against every entry's lower-cased title and content, and the first ten
 matching entries, in index order, are shown with their titles highlighted.
 When nothing matches the panel shows a "nothing found" message instead.
 */
module Search {
  import opened Seqs
  import opened Text
  import opened SearchIndex
  import opened Highlight

  /** Queries shorter than this leave the search inactive. */
  const MinQueryLength: nat := 2
  /** At most this many results are shown. */
  const MaxResults: nat := 10
  /** The message shown when no entry matches ("Nothing found"). */
  const NothingFound := "Ничего не найдено"

  /** An entry matches when the lower-cased query occurs in its lower-cased
      title or in its lower-cased content. */
  predicate Matches(e: Entry, lowerQuery: string)
    ensures Matches(e, lowerQuery) <==>
      exists i :: OccursAt(Lower(e.title), lowerQuery, i) || OccursAt(Lower(e.content), lowerQuery, i)
  {
    ContainsIffOccurs(Lower(e.title), lowerQuery);
    ContainsIffOccurs(Lower(e.content), lowerQuery);
    Contains(Lower(e.title), lowerQuery) || Contains(Lower(e.content), lowerQuery)
  }

  /** `searchIndex.filter(...)`: the matching entries, in index order. */
  function FilterMatches(index: seq<Entry>, lowerQuery: string): (r: seq<Entry>)
    ensures forall j :: 0 <= j < |r| ==> Matches(r[j], lowerQuery)
    ensures forall e :: e in r <==> e in index && Matches(e, lowerQuery)
    ensures IsSubsequence(r, index)
    ensures |r| == CountMatches(index, lowerQuery)
  {
    if |index| == 0 then []
    else if Matches(index[0], lowerQuery) then [index[0]] + FilterMatches(index[1..], lowerQuery)
    else FilterMatches(index[1..], lowerQuery)
  }

  /** How many entries of the index match. */
  function CountMatches(index: seq<Entry>, lowerQuery: string): nat {
    if |index| == 0 then 0
    else (if Matches(index[0], lowerQuery) then 1 else 0) + CountMatches(index[1..], lowerQuery)
  }

  /** Every matching entry is kept as many times as it occurs in the index;
      every other entry is dropped. */
  lemma {:induction false} FilterMatchesKeepCopies(index: seq<Entry>, lowerQuery: string)
    ensures var r := FilterMatches(index, lowerQuery);
      forall e :: multiset(r)[e] == if Matches(e, lowerQuery) then multiset(index)[e] else 0
    decreases |index|
  {
    if |index| > 0 {
      MultisetOfCons(index);
      FilterMatchesKeepCopies(index[1..], lowerQuery);
    }
  }

  /** What one search leads to: the panel is hidden, or it says nothing was
      found, or it lists results. */
  datatype Outcome = Inactive | NotFound | Found(results: seq<Entry>)

  /** `performSearch(query)`, without the rendering. */
  function PerformSearch(index: seq<Entry>, query: string): (o: Outcome)
    ensures o.Inactive? <==> |query| < MinQueryLength
    ensures o.NotFound? <==>
      |query| >= MinQueryLength && forall e :: e in index ==> !Matches(e, Lower(query))
    ensures o.Found? ==>
      && 0 < |o.results| <= MaxResults
      && IsSubsequence(o.results, index)
      && (forall j :: 0 <= j < |o.results| ==> Matches(o.results[j], Lower(query)))
      && |o.results| == Min(MaxResults, |FilterMatches(index, Lower(query))|)
  {
    if |query| < MinQueryLength then Inactive
    else
      var all := FilterMatches(index, Lower(query));
      var results := Take(all, MaxResults);
      if |results| > 0 then
        PrefixOfSubsequence(all, index, |results|);
        assert all[..|results|] == results;
        Found(results)
      else
        assert |all| == 0;
        NotFound
  }

  /** The first `n` matching entries, found by a scan that stops as soon as it
      has `n` of them. */
  function FirstMatches(index: seq<Entry>, lowerQuery: string, n: nat): seq<Entry> {
    if n == 0 || |index| == 0 then []
    else if Matches(index[0], lowerQuery) then [index[0]] + FirstMatches(index[1..], lowerQuery, n - 1)
    else FirstMatches(index[1..], lowerQuery, n)
  }

  /** Filtering everything and then keeping the first `n` is the same as
      scanning for the first `n` matches. */
  lemma {:induction false} FilterThenTake(index: seq<Entry>, lowerQuery: string, n: nat)
    ensures Take(FilterMatches(index, lowerQuery), n) == FirstMatches(index, lowerQuery, n)
    decreases |index|
  {
    if n > 0 && |index| > 0 {
      FilterThenTake(index[1..], lowerQuery, if Matches(index[0], lowerQuery) then n - 1 else n);
      var rest := FilterMatches(index[1..], lowerQuery);
      if Matches(index[0], lowerQuery) {
        var all := [index[0]] + rest;
        assert Take(all, n) == [index[0]] + Take(rest, n - 1);
      }
    }
  }

  /** For an active query the results are exactly the first ten matching
      entries in index order, and the search reports "nothing found" exactly
      when there is no match at all. */
  lemma ResultsAreFirstMatches(index: seq<Entry>, query: string)
    requires |query| >= MinQueryLength
    ensures var first := FirstMatches(index, Lower(query), MaxResults);
      PerformSearch(index, query) == if |first| == 0 then NotFound else Found(first)
  {
    FilterThenTake(index, Lower(query), MaxResults);
  }

  /** A result as rendered: the section it leads to, its highlighted title and
      its category. */
  datatype ResultItem = ResultItem(section: string, title: seq<Token>, category: string)

  datatype PanelContent = Items(items: seq<ResultItem>) | Message(text: string)

  /** The results panel: whether it is shown, and what it holds. */
  datatype Panel = Panel(shown: bool, content: PanelContent)

  function RenderResults(results: seq<Entry>, query: string): (r: seq<ResultItem>)
    ensures |r| == |results|
    ensures forall j :: 0 <= j < |r| ==>
      && r[j].section == results[j].id
      && r[j].category == results[j].category
      && r[j].title == HighlightMatch(results[j].title, query)
      && StripMarkers(r[j].title) == results[j].title
  {
    seq(|results|, j requires 0 <= j < |results| =>
      ResultItem(results[j].id, HighlightMatch(results[j].title, query), results[j].category))
  }

  /** `performSearch(query)` acting on the panel. An inactive query only hides
      the panel and leaves what it held in place. */
  function UpdatePanel(p: Panel, index: seq<Entry>, query: string): (r: Panel)
    ensures |query| < MinQueryLength ==> !r.shown && r.content == p.content
    ensures |query| >= MinQueryLength ==> r.shown
    ensures PerformSearch(index, query).NotFound? <==>
      |query| >= MinQueryLength && r.content == Message(NothingFound)
    ensures PerformSearch(index, query).Found? ==>
      r.content == Items(RenderResults(PerformSearch(index, query).results, query))
  {
    match PerformSearch(index, query)
    case Inactive => p.(shown := false)
    case NotFound => Panel(true, Message(NothingFound))
    case Found(results) => Panel(true, Items(RenderResults(results, query)))
  }

  /** Every item the shown panel lists leads to the section of some entry of
      the index. */
  lemma ShownItemsComeFromIndex(p: Panel, index: seq<Entry>, query: string)
    ensures var r := UpdatePanel(p, index, query);
      r.shown && r.content.Items? ==>
        forall item :: item in r.content.items ==> exists e :: e in index && e.id == item.section
  {
    var o := PerformSearch(index, query);
    if o.Found? {
      var items := RenderResults(o.results, query);
      forall item | item in items
        ensures exists e :: e in index && e.id == item.section
      {
        var j :| 0 <= j < |items| && items[j] == item;
        SubsequenceMember(o.results, index, o.results[j]);
      }
    }
  }

  /** Two queries with the same lower-casing give the same panel, highlighted
      titles included. */
  lemma PanelIgnoresQueryCase(p: Panel, index: seq<Entry>, q1: string, q2: string)
    requires Lower(q1) == Lower(q2)
    ensures PerformSearch(index, q1) == PerformSearch(index, q2)
    ensures UpdatePanel(p, index, q1) == UpdatePanel(p, index, q2)
  {
    assert |q1| == |Lower(q1)| == |q2|;
    match PerformSearch(index, q1)
    case Found(results) =>
      forall j | 0 <= j < |results|
        ensures HighlightMatch(results[j].title, q1) == HighlightMatch(results[j].title, q2)
      {
        HighlightIgnoresQueryCase(results[j].title, q1, q2);
      }
      assert RenderResults(results, q1) == RenderResults(results, q2);
    case _ =>
  }

  /** Running the same search twice leaves the panel as one run does. */
  lemma SearchIdempotent(p: Panel, index: seq<Entry>, query: string)
    ensures UpdatePanel(UpdatePanel(p, index, query), index, query) == UpdatePanel(p, index, query)
  {
  }
}

=== FILE: search_index.dfy ===
/**
 The search index builder: one pass over the page content, producing a flat,
 ordered list of entries. For every section, in document order, it emits the
 section's own entry, then one entry per heading, then one entry per table body
 row that has at least two cells.
 */
module SearchIndex {
  import opened Seqs
  import opened Text
  import opened Wrappers
  import opened Content

  /** Category label of a section's own entry ("Section"). */
  const SectionCategory := "Раздел"
  /** Category label of a table row entry ("Command"). */
  const CommandCategory := "Команда"

  /** Snippet length of a section entry, in characters. */
  const SectionSnippet: nat := 500
  /** Snippet length of a heading or row entry, in characters. */
  const DetailSnippet: nat := 200

  datatype Entry = Entry(id: string, title: string, category: string, content: string)

  /** The section's title text, or the empty string when it has no title element. */
  function TitleText(s: Section): string {
    s.title.GetOr("")
  }

  /** The entry of the section itself: its title, and the start of its whole text. */
  function SectionEntry(s: Section): (e: Entry)
    ensures e.id == s.id && e.category == SectionCategory
    ensures s.title.Some? ==> e.title == s.title.value
    ensures s.title.None? ==> e.title == ""
    ensures e.content <= s.text && |e.content| == Min(|s.text|, SectionSnippet)
  {
    Entry(s.id, TitleText(s), SectionCategory, Take(s.text, SectionSnippet))
  }

  /** The entry of one heading: filed under the section's title, with the start
      of the following element's text as content. */
  function HeadingEntry(id: string, sectionTitle: string, h: Heading): (e: Entry)
    ensures e.id == id && e.title == h.text && e.category == sectionTitle
    ensures h.next.None? ==> e.content == ""
    ensures h.next.Some? ==>
      e.content <= h.next.value && |e.content| == Min(|h.next.value|, DetailSnippet)
  {
    var content := match h.next
      case Some(t) => Take(t, DetailSnippet)
      case None => "";
    Entry(id, h.text, sectionTitle, content)
  }

  function HeadingEntries(id: string, sectionTitle: string, hs: seq<Heading>): (r: seq<Entry>)
    ensures |r| == |hs|
    ensures forall i :: 0 <= i < |hs| ==> r[i] == HeadingEntry(id, sectionTitle, hs[i])
  {
    if |hs| == 0 then [] else [HeadingEntry(id, sectionTitle, hs[0])] + HeadingEntries(id, sectionTitle, hs[1..])
  }

  /** Only rows with at least two cells are indexed. */
  predicate IsCommandRow(row: Row) {
    |row.cells| >= 2
  }

  /** The rows that are indexed, in their original order. */
  function CommandRows(rows: seq<Row>): (r: seq<Row>)
    ensures forall j :: 0 <= j < |r| ==> IsCommandRow(r[j])
    ensures forall x :: x in r <==> x in rows && IsCommandRow(x)
    ensures IsSubsequence(r, rows)
    ensures |r| == CountCommandRows(rows)
  {
    if |rows| == 0 then []
    else if IsCommandRow(rows[0]) then [rows[0]] + CommandRows(rows[1..])
    else CommandRows(rows[1..])
  }

  /** How many of the rows have at least two cells. */
  function CountCommandRows(rows: seq<Row>): nat {
    if |rows| == 0 then 0 else (if IsCommandRow(rows[0]) then 1 else 0) + CountCommandRows(rows[1..])
  }

  /** Every row with at least two cells is kept as many times as it occurs;
      every other row is dropped. */
  lemma {:induction false} CommandRowsKeepCopies(rows: seq<Row>)
    ensures forall x :: multiset(CommandRows(rows))[x] == if IsCommandRow(x) then multiset(rows)[x] else 0
    decreases |rows|
  {
    if |rows| > 0 {
      MultisetOfCons(rows);
      CommandRowsKeepCopies(rows[1..]);
    }
  }

  /** The entry of one indexed row: its trimmed first cell as title, the start
      of its last cell as content. */
  function RowEntry(id: string, row: Row): Entry
    requires IsCommandRow(row)
  {
    Entry(id, Trim(row.cells[0]), CommandCategory, Take(row.cells[|row.cells| - 1], DetailSnippet))
  }

  /** A row's entry points at its section, is a command, is titled by the
      first cell without surrounding whitespace, and holds the first
      `DetailSnippet` characters of the last cell. */
  lemma RowEntryFacts(id: string, row: Row)
    requires IsCommandRow(row)
    ensures var e := RowEntry(id, row);
      && e.id == id && e.category == CommandCategory
      && e.title == Trim(row.cells[0]) && Trimmed(e.title)
      && var last := row.cells[|row.cells| - 1];
      e.content <= last && |e.content| == Min(|last|, DetailSnippet)
  {
    var last := row.cells[|row.cells| - 1];
    assert RowEntry(id, row).content == Take(last, DetailSnippet);
  }

  /** The row loop: rows with fewer than two cells are skipped, and every other
      row produces one entry, in row order. */
  function RowEntries(id: string, rows: seq<Row>): (r: seq<Entry>)
    ensures |r| == |CommandRows(rows)|
    ensures forall j :: 0 <= j < |r| ==> r[j].id == id && r[j].category == CommandCategory
    ensures forall j :: 0 <= j < |r| ==> r[j] == RowEntry(id, CommandRows(rows)[j])
  {
    var indexed := CommandRows(rows);
    seq(|indexed|, j requires 0 <= j < |indexed| => RowEntry(id, indexed[j]))
  }

  /** All entries of one section, in the order the builder pushes them. */
  function SectionEntries(s: Section): (r: seq<Entry>)
    ensures |r| == 1 + |s.headings| + |CommandRows(s.rows)|
    ensures r[0] == SectionEntry(s)
    ensures forall i :: 0 <= i < |s.headings| ==> r[1 + i] == HeadingEntry(s.id, TitleText(s), s.headings[i])
    ensures forall j :: 0 <= j < |CommandRows(s.rows)| ==>
      r[1 + |s.headings| + j] == RowEntry(s.id, CommandRows(s.rows)[j])
  {
    [SectionEntry(s)] + HeadingEntries(s.id, TitleText(s), s.headings) + RowEntries(s.id, s.rows)
  }

  /** Every entry of a section carries the section's id; apart from the
      section's own entry, every snippet is at most a detail snippet long. */
  lemma SectionEntryFacts(s: Section, e: Entry)
    requires e in SectionEntries(s)
    ensures e.id == s.id
    ensures e != SectionEntry(s) ==> |e.content| <= DetailSnippet
  {
    var heads := HeadingEntries(s.id, TitleText(s), s.headings);
    var rows := RowEntries(s.id, s.rows);
    if e in heads {
      var i :| 0 <= i < |heads| && heads[i] == e;
    } else if e in rows {
      var j :| 0 <= j < |rows| && rows[j] == e;
      RowEntryFacts(s.id, CommandRows(s.rows)[j]);
    }
  }

  function SectionIds(sections: seq<Section>): set<string> {
    set s | s in sections :: s.id
  }

  /** `buildSearchIndex`: the entries of every section, section after section. */
  function BuildSearchIndex(sections: seq<Section>): (r: seq<Entry>)
    ensures forall k :: 0 <= k < |sections| ==> SectionEntry(sections[k]) in r
  {
    SectionsIndexed(sections);
    ConcatMap(SectionEntries, sections)
  }

  /** Every section contributes its own entry, whatever else it contributes. */
  lemma SectionsIndexed(sections: seq<Section>)
    ensures forall k :: 0 <= k < |sections| ==>
      SectionEntry(sections[k]) in ConcatMap(SectionEntries, sections)
  {
    forall k | 0 <= k < |sections|
      ensures SectionEntry(sections[k]) in ConcatMap(SectionEntries, sections)
    {
      ConcatMapBlock(SectionEntries, sections, k);
      var block := SectionEntries(sections[k]);
      assert block[0] == SectionEntry(sections[k]);
      var before := ConcatMap(SectionEntries, sections[..k]);
      assert ConcatMap(SectionEntries, sections)[|before|] == block[0];
    }
  }

  /** Every entry points back at a section of the page, and no snippet is longer
      than a section snippet. */
  lemma EntriesBelongToSections(sections: seq<Section>)
    ensures forall e :: e in BuildSearchIndex(sections) ==>
      e.id in SectionIds(sections) && |e.content| <= SectionSnippet
  {
    forall e | e in BuildSearchIndex(sections)
      ensures e.id in SectionIds(sections) && |e.content| <= SectionSnippet
    {
      ConcatMapMember(SectionEntries, sections, e);
      var s :| s in sections && e in SectionEntries(s);
      SectionEntryFacts(s, e);
    }
  }

  /** The entries of section `k` form one contiguous block, placed after those
      of every earlier section and before those of every later one. */
  lemma SectionBlock(sections: seq<Section>, k: nat)
    requires k < |sections|
    ensures BuildSearchIndex(sections) ==
      BuildSearchIndex(sections[..k]) + SectionEntries(sections[k]) + BuildSearchIndex(sections[k + 1..])
  {
    ConcatMapBlock(SectionEntries, sections, k);
  }
}

=== FILE: seqs.dfy ===
/** Sequence helpers shared by the index builder and the query engine. */
module Seqs {

  function Min(a: int, b: int): int {
    if a <= b then a else b
  }

  /** `xs.slice(0, n)` and `s.substring(0, n)`: the first `n` elements, or all
      of `xs` when it is shorter. */
  function Take<T>(xs: seq<T>, n: nat): (r: seq<T>)
    ensures r <= xs
    ensures |r| == Min(|xs|, n)
  {
    if |xs| <= n then xs else xs[..n]
  }

  /** `a` is obtained from `b` by deleting elements, keeping the order of the rest. */
  ghost predicate IsSubsequence<T>(a: seq<T>, b: seq<T>)
    decreases |b|
  {
    |a| == 0 || (|b| > 0 && ((a[0] == b[0] && IsSubsequence(a[1..], b[1..])) || IsSubsequence(a, b[1..])))
  }

  /** The elements of a non-empty sequence: its head and those of its tail. */
  lemma MultisetOfCons<T>(xs: seq<T>)
    requires |xs| > 0
    ensures multiset(xs) == multiset{xs[0]} + multiset(xs[1..])
  {
    assert xs == [xs[0]] + xs[1..];
  }

  /** Every prefix of a subsequence of `b` is again a subsequence of `b`. */
  lemma {:induction false} PrefixOfSubsequence<T>(a: seq<T>, b: seq<T>, n: nat)
    requires IsSubsequence(a, b)
    requires n <= |a|
    ensures IsSubsequence(a[..n], b)
    decreases |b|
  {
    if n > 0 {
      if a[0] == b[0] && IsSubsequence(a[1..], b[1..]) {
        PrefixOfSubsequence(a[1..], b[1..], n - 1);
        assert a[..n][1..] == a[1..][..n - 1];
      } else {
        PrefixOfSubsequence(a, b[1..], n);
      }
    }
  }

  /** Every element of a subsequence of `b` is an element of `b`. */
  lemma {:induction false} SubsequenceMember<T>(a: seq<T>, b: seq<T>, x: T)
    requires IsSubsequence(a, b) && x in a
    ensures x in b
    decreases |b|
  {
    if x == b[0] {
    } else if a[0] == b[0] && IsSubsequence(a[1..], b[1..]) {
      assert x in a[1..];
      SubsequenceMember(a[1..], b[1..], x);
    } else {
      SubsequenceMember(a, b[1..], x);
    }
  }

  /** `f` applied to every element, the results concatenated in order: the
      shape of a loop that pushes a run of items per element. */
  function ConcatMap<A, B>(f: A -> seq<B>, xs: seq<A>): seq<B>
    decreases |xs|
  {
    if |xs| == 0 then [] else f(xs[0]) + ConcatMap(f, xs[1..])
  }

  lemma {:induction false} ConcatMapAppend<A, B>(f: A -> seq<B>, xs: seq<A>, ys: seq<A>)
    ensures ConcatMap(f, xs + ys) == ConcatMap(f, xs) + ConcatMap(f, ys)
    decreases |xs|
  {
    if |xs| == 0 {
      assert xs + ys == ys;
    } else {
      assert (xs + ys)[0] == xs[0] && (xs + ys)[1..] == xs[1..] + ys;
      ConcatMapAppend(f, xs[1..], ys);
    }
  }

  /** The run produced for element `k` sits, contiguous, between the runs of
      the elements before it and those after it. */
  lemma ConcatMapBlock<A, B>(f: A -> seq<B>, xs: seq<A>, k: nat)
    requires k < |xs|
    ensures ConcatMap(f, xs) == ConcatMap(f, xs[..k]) + f(xs[k]) + ConcatMap(f, xs[k + 1..])
  {
    var tail := xs[k..];
    assert xs == xs[..k] + tail;
    ConcatMapAppend(f, xs[..k], tail);
    assert tail[0] == xs[k] && tail[1..] == xs[k + 1..];
  }

  /** An element of the result comes from the run of some element of `xs`. */
  lemma {:induction false} ConcatMapMember<A, B>(f: A -> seq<B>, xs: seq<A>, y: B)
    requires y in ConcatMap(f, xs)
    ensures exists x :: x in xs && y in f(x)
    decreases |xs|
  {
    if y !in f(xs[0]) {
      ConcatMapMember(f, xs[1..], y);
      var x :| x in xs[1..] && y in f(x);
      assert x in xs;
    }
  }
}

=== FILE: table_filter.dfy ===
/**
 The table filter: typing in a filter box hides the rows of the table after it
 whose text does not contain the typed text, letter case ignored.
 */
module TableFilter {
  import opened Text

  /** A row stays visible when its lower-cased text contains the lower-cased query. */
  predicate RowVisible(rowText: string, query: string) {
    Contains(Lower(rowText), Lower(query))
  }

  /** The visibility of every row of the table, in order. */
  function FilterRows(rowTexts: seq<string>, query: string): (shown: seq<bool>)
    ensures |shown| == |rowTexts|
    ensures forall i :: 0 <= i < |rowTexts| ==>
      (shown[i] <==> exists k :: OccursAt(Lower(rowTexts[i]), Lower(query), k))
  {
    var shown := seq(|rowTexts|, i requires 0 <= i < |rowTexts| => RowVisible(rowTexts[i], query));
    assert forall i :: 0 <= i < |rowTexts| ==>
      (shown[i] <==> exists k :: OccursAt(Lower(rowTexts[i]), Lower(query), k)) by {
      forall i | 0 <= i < |rowTexts|
        ensures shown[i] <==> exists k :: OccursAt(Lower(rowTexts[i]), Lower(query), k)
      {
        ContainsIffOccurs(Lower(rowTexts[i]), Lower(query));
      }
    }
    shown
  }

  /** An empty filter shows every row. */
  lemma EmptyQueryShowsAll(rowTexts: seq<string>)
    ensures forall i :: 0 <= i < |rowTexts| ==> FilterRows(rowTexts, "")[i]
  {
    forall i | 0 <= i < |rowTexts|
      ensures FilterRows(rowTexts, "")[i]
    {
      assert OccursAt(Lower(rowTexts[i]), Lower(""), 0);
    }
  }

  /** Typing more characters can only hide rows, never show new ones. */
  lemma LongerQueryShowsFewer(rowTexts: seq<string>, query: string, more: string)
    ensures forall i :: 0 <= i < |rowTexts| && FilterRows(rowTexts, query + more)[i] ==>
      FilterRows(rowTexts, query)[i]
  {
    LowerConcat(query, more);
    forall i | 0 <= i < |rowTexts| && FilterRows(rowTexts, query + more)[i]
      ensures FilterRows(rowTexts, query)[i]
    {
      assert RowVisible(rowTexts[i], query + more);
      ContainsNeedlePrefix(Lower(rowTexts[i]), Lower(query), Lower(more));
    }
  }
}

=== FILE: text.dfy ===
/**
 The string primitives the page script relies on: `toLowerCase`, `includes`
 and `trim`, stated over `string` (a sequence of characters).
 */
module Text {

  /** Lower-case mapping of one character. It covers ASCII, the Latin-1
      supplement and the basic Cyrillic block (the site's content is Russian);
      every other character is left as it is. */
  function LowerChar(c: char): char {
    if 'A' <= c <= 'Z' then (c as int + 32) as char
    else if '\U{00C0}' <= c <= '\U{00DE}' && c != '\U{00D7}' then (c as int + 32) as char
    else if '\U{0410}' <= c <= '\U{042F}' then (c as int + 32) as char
    else if '\U{0400}' <= c <= '\U{040F}' then (c as int + 80) as char
    else c
  }

  function Lower(s: string): (r: string)
    ensures |r| == |s|
  {
    seq(|s|, i requires 0 <= i < |s| => LowerChar(s[i]))
  }

  /** Lower-casing a lower-cased string changes nothing. */
  lemma LowerIdempotent(s: string)
    ensures Lower(Lower(s)) == Lower(s)
  {
    forall i | 0 <= i < |s|
      ensures Lower(Lower(s))[i] == Lower(s)[i]
    {
      LowerCharIdempotent(s[i]);
    }
  }

  lemma LowerCharIdempotent(c: char)
    ensures LowerChar(LowerChar(c)) == LowerChar(c)
  {
  }

  lemma LowerConcat(a: string, b: string)
    ensures Lower(a + b) == Lower(a) + Lower(b)
  {
  }

  /** `s.includes(sub)`: `sub` occurs somewhere in `s` (the empty string occurs everywhere). */
  predicate Contains(s: string, sub: string)
    ensures Contains(s, sub) ==> |sub| <= |s|
    decreases |s|
  {
    sub <= s || (|s| > 0 && Contains(s[1..], sub))
  }

  /** `sub` occurs in `s` starting at position `i`. */
  ghost predicate OccursAt(s: string, sub: string, i: int) {
    0 <= i && i + |sub| <= |s| && s[i..i + |sub|] == sub
  }

  /** An occurrence in `s[1..]` is an occurrence in `s`, one place later. */
  lemma OccursShift(s: string, sub: string, i: nat)
    requires |s| > 0
    ensures OccursAt(s[1..], sub, i) <==> OccursAt(s, sub, i + 1)
  {
    if i + |sub| <= |s| - 1 {
      assert s[1..][i..i + |sub|] == s[i + 1..i + 1 + |sub|];
    }
  }

  lemma {:induction false} ContainsToOccurs(s: string, sub: string) returns (i: nat)
    requires Contains(s, sub)
    ensures OccursAt(s, sub, i)
    decreases |s|
  {
    if sub <= s {
      assert s[0..|sub|] == sub;
      i := 0;
    } else {
      var j := ContainsToOccurs(s[1..], sub);
      OccursShift(s, sub, j);
      i := j + 1;
    }
  }

  lemma {:induction false} OccursToContains(s: string, sub: string, i: int)
    requires OccursAt(s, sub, i)
    ensures Contains(s, sub)
    decreases i
  {
    if i == 0 {
      assert s[..|sub|] == sub;
    } else {
      OccursShift(s, sub, i - 1);
      OccursToContains(s[1..], sub, i - 1);
    }
  }

  /** The recursive scan agrees with the positional definition of an occurrence. */
  lemma ContainsIffOccurs(s: string, sub: string)
    ensures Contains(s, sub) <==> exists i :: OccursAt(s, sub, i)
  {
    if Contains(s, sub) {
      var i := ContainsToOccurs(s, sub);
    }
    if exists i :: OccursAt(s, sub, i) {
      var i :| OccursAt(s, sub, i);
      OccursToContains(s, sub, i);
    }
  }

  /** A string that contains `a + b` also contains `a`. */
  lemma {:induction false} ContainsNeedlePrefix(s: string, a: string, b: string)
    requires Contains(s, a + b)
    ensures Contains(s, a)
    decreases |s|
  {
    if (a + b) <= s {
      assert s[..|a|] == (a + b)[..|a|] == a;
    } else {
      ContainsNeedlePrefix(s[1..], a, b);
    }
  }

  /** The characters JavaScript's `String.prototype.trim` removes: the
      WhiteSpace and LineTerminator productions of ECMAScript. */
  predicate IsWhitespace(c: char) {
    c == '\t' || c == '\n' || c == '\U{000B}' || c == '\U{000C}' || c == '\r'
    || c == ' ' || c == '\U{00A0}' || c == '\U{1680}'
    || ('\U{2000}' <= c <= '\U{200A}')
    || c == '\U{2028}' || c == '\U{2029}' || c == '\U{202F}' || c == '\U{205F}'
    || c == '\U{3000}' || c == '\U{FEFF}'
  }

  ghost predicate AllWhitespace(s: string) {
    forall i :: 0 <= i < |s| ==> IsWhitespace(s[i])
  }

  /** Neither end of `s` is a whitespace character. */
  predicate Trimmed(s: string) {
    |s| == 0 || (!IsWhitespace(s[0]) && !IsWhitespace(s[|s| - 1]))
  }

  /** `s` with its leading whitespace removed. */
  function TrimStart(s: string): (r: string)
    ensures |r| <= |s|
    ensures AllWhitespace(s[..|s| - |r|])
    ensures |r| == 0 || !IsWhitespace(r[0])
    decreases |s|
  {
    if |s| > 0 && IsWhitespace(s[0]) then TrimStart(s[1..]) else s
  }

  /** `s` with its trailing whitespace removed. */
  function TrimEnd(s: string): (r: string)
    ensures r <= s
    ensures AllWhitespace(s[|r|..])
    ensures |r| == 0 || !IsWhitespace(r[|r| - 1])
    decreases |s|
  {
    if |s| > 0 && IsWhitespace(s[|s| - 1]) then
      var r := TrimEnd(s[..|s| - 1]);
      WhitespaceSnoc(s[..|s| - 1][|r|..], s[|s| - 1]);
      assert s[|r|..] == s[..|s| - 1][|r|..] + [s[|s| - 1]];
      r
    else s
  }

  lemma WhitespaceSnoc(w: string, c: char)
    requires AllWhitespace(w) && IsWhitespace(c)
    ensures AllWhitespace(w + [c])
  {
    assert forall i :: 0 <= i < |w| ==> (w + [c])[i] == w[i];
  }

  /** `s.trim()`. */
  function Trim(s: string): (r: string)
    ensures Trimmed(r)
    ensures |r| <= |s|
  {
    var t := TrimStart(s);
    TrimEndKeepsHead(t);
    TrimEnd(t)
  }

  lemma TrimEndKeepsHead(t: string)
    requires |t| == 0 || !IsWhitespace(t[0])
    ensures Trimmed(TrimEnd(t))
  {
    var r := TrimEnd(t);
    if |r| > 0 {
      assert r[0] == t[0];
    }
  }

  /** Trim is characterised by its result alone: whenever `s` splits as
      whitespace, then `m` with no whitespace at either end, then whitespace,
      `m` is exactly what Trim returns. */
  lemma TrimUnique(s: string, lead: string, m: string, trail: string)
    requires s == lead + m + trail
    requires AllWhitespace(lead) && AllWhitespace(trail) && Trimmed(m)
    ensures Trim(s) == m
  {
    if |m| == 0 {
      assert s == lead + trail;
      assert AllWhitespace(s);
      TrimStartSplit(s, s, "");
      assert TrimStart(s) == "";
    } else {
      TrimStartSplit(s, lead, m + trail);
      TrimEndSplit(m + trail, m, trail);
    }
  }

  lemma {:induction false} TrimStartSplit(s: string, lead: string, rest: string)
    requires s == lead + rest
    requires AllWhitespace(lead)
    requires |rest| == 0 || !IsWhitespace(rest[0])
    ensures TrimStart(s) == rest
    decreases |lead|
  {
    if |lead| > 0 {
      assert s[1..] == lead[1..] + rest;
      TrimStartSplit(s[1..], lead[1..], rest);
    }
  }

  lemma {:induction false} TrimEndSplit(s: string, rest: string, trail: string)
    requires s == rest + trail
    requires AllWhitespace(trail)
    requires |rest| == 0 || !IsWhitespace(rest[|rest| - 1])
    ensures TrimEnd(s) == rest
    decreases |trail|
  {
    if |trail| > 0 {
      assert s[..|s| - 1] == rest + trail[..|trail| - 1];
      TrimEndSplit(s[..|s| - 1], rest, trail[..|trail| - 1]);
    } else {
      assert s == rest;
    }
  }
}

=== FILE: wrappers.dfy ===
/** The optional value used throughout the model. */
module Wrappers {

  datatype Option<+T> = None | Some(value: T) {
    function GetOr(default: T): T {
      match this
      case Some(v) => v
      case None => default
    }
  }
}
